=== FILE: README.md ===
# wlfwifi core, modelled in Dafny

This project models the core of wlfwifi, a wireless-network auditing tool.
It covers the parts of the tool that decide things, as opposed to the parts that drive external programs:

- **Models** (`models.dfy`): the discovery entities `Target`, `Client` and `CapFile`. Each one stores its fields exactly as given.
- **WpsCheck** (`wps.dfy`): the classification step of `wps_check_targets`.
  - It has three guards: the inspector tool is missing, the target list is empty, or the capture file is missing.
  - It scans the inspector's output with `findall`. The scan is leftmost-first and its matches never overlap. The pattern is `[A-F0-9:]{17}` with case ignored.
  - It then overwrites every target's `wps` flag.
- **AttackContract** (`attack.dfy`): the abstract `Attack` class.
  - A class that leaves `RunAttack` or `EndAttack` unoverridden cannot be instantiated.
  - The base bodies raise `NotImplemented`.
  - `ConcreteAttack` is a subset type: only classes that override both methods belong to it, so only those can be run.
- **TimeFormat** (`time_format.dfy`): `sec_to_hms`, with a parser for "[h:mm:ss]" as its inverse.
- **Commas** (`commas.dfy`): the loop of `add_commas`. It is proved equal to a right-to-left grouping into runs of three, and stripping the commas gives the numeral back.
- **MacAddress** (`mac.dfy`):
  - `generate_random_mac`, with the random draws passed in as a supply of nibbles;
  - the address parse inside `get_mac_address`, which is a `re.search` for a space and then six dash-joined pairs.
- **MacSession** (`mac_session.dfy`): the record-and-restore protocol of `mac_anonymize` and `mac_change_back`.
  - The record is `ORIGINAL_IFACE_MAC`.
  - The host is a map from interface to address, plus a log of `ifconfig` down / hw ether / up commands.
- **FileOps** (`files.dfy`): `remove_file`, the set of files `remove_airodump_files` deletes, and `rename` with its fallback for moves across devices. The file system is a map from path to bytes.
- **ProgramLookup** (`programs.dfy`): the decision `program_exists` makes from the two output streams of `which`.

`common.dfy` and `strings.dfy` hold the shared pieces:

- `Option` and `Result`;
- ASCII character classes and case mapping;
- `str(n)` for integers (`Dec`, `IntToString`); the digits of `Dec(n)` are proved to parse back to `n`.

Whatever the operating system or an external process decides is a parameter of the model:

- whether a program exists;
- whether a file exists;
- what a subprocess printed;
- whether a removal is refused;
- how `os.rename`, `shutil.copy` and `os.unlink` turn out;
- the random nibbles.

## Model

| member | source | states |
|---|---|---|
| Models.NewTarget | wlfwifi/models.py:30-37 | a target keeps bssid, essid, channel, encryption and wps exactly as passed |
| Models.NewClient | wlfwifi/models.py:51-53 | a client keeps its MAC and associated BSSID as passed, "" included |
| Models.NewCapFile | wlfwifi/models.py:67-69 | a capture keeps its path and handshake count as passed, negative counts included |
| Models.NoNormalisation | wlfwifi/models.py:30-69 | no case folding or range check happens on construction: lower-case BSSIDs, lower-case encryption, empty and non-ASCII ESSIDs, channels 0 and 149, and a count of -1 all read back unchanged |
| WpsCheck.MatchStarts | wlfwifi/attacks.py:59-62 | every reported start is a real 17-character match, and consecutive matches do not overlap |
| WpsCheck.MatchStartsCover | wlfwifi/attacks.py:59-62 | every position where the pattern matches lies inside some reported match, so the scan never skips a match it did not consume |
| WpsCheck.MatchStartsLeftmost | wlfwifi/attacks.py:59-62 | no match starts in a gap before a reported match, so the reported matches are the leftmost non-overlapping ones |
| WpsCheck.Tokens | wlfwifi/attacks.py:59-63 | one upper-cased token per reported match, in scan order, each the 17 characters at that match |
| WpsCheck.WpsCheckTargets | wlfwifi/attacks.py:23-65 | a missing tool, an empty list, a missing capture, or a failed launch leaves the list as it was; otherwise only `wps` changes, and it holds exactly when the upper-cased BSSID is among the tokens |
| WpsCheck.FlagMeansMatch | wlfwifi/attacks.py:59-65 | a flag is set if and only if some leftmost match of the output, upper-cased, equals the upper-cased BSSID |
| WpsCheck.Idempotent | wlfwifi/attacks.py:64-65 | running the step twice on the same output gives the same list as running it once |
| WpsCheck.OverwriteIgnoresPriorFlag | wlfwifi/attacks.py:64-65 | two lists that differ only in their previous flags classify to the same list |
| WpsCheck.CaseInsensitive | wlfwifi/attacks.py:59-65 | BSSIDs that agree up to case get the same flag |
| WpsCheck.NoTokenClearsAll | wlfwifi/attacks.py:59-65 | output with no 17-character run of hex digits and colons, empty output included, clears every flag |
| WpsCheck.WrongLengthNeverFlagged | wlfwifi/attacks.py:59-65 | a BSSID that is not 17 characters long is never flagged |
| WpsCheck.FirstRecordFound | wlfwifi/attacks.py:40-65 | in output of the form address, ',' and the rest, the first address is always among the tokens |
| WpsCheck.TwoTargetScenario | wlfwifi/attacks.py:59-65 | with one record naming the first of two targets, the first is flagged and the second loses the flag it had |
| WpsCheck.BareHexRunIsToken | wlfwifi/attacks.py:59 | seventeen hex digits with no colon at all form a token |
| WpsCheck.MisalignedAddressMissed | wlfwifi/attacks.py:59-62 | a hex digit and colon in front of an address shift the match window, so the address itself is not reported |
| AttackContract.AbstractMethods | wlfwifi/attacks.py:89-98 | a method counts as abstract in a class if and only if the class does not override it |
| AttackContract.Instantiate | wlfwifi/attacks.py:89-98 | instantiation succeeds if and only if both methods are overridden; otherwise it fails and names exactly the methods still abstract |
| AttackContract.RunAttack | wlfwifi/attacks.py:90-93 | a concrete attack returns its override's value, or fails with NotImplemented(Run) when the override defers to the base |
| AttackContract.EndAttack | wlfwifi/attacks.py:95-98 | a concrete attack returns its override's value, or fails with NotImplemented(End) when the override defers to the base |
| AttackContract.ContractCases | wlfwifi/attacks.py:89-98 | neither `Attack` itself nor a subclass with one method can be instantiated; deferring to the base raises; a complete subclass returns its own values |
| TimeFormat.Pad2 | wlfwifi/utils.py:92 | `%02d` gives two digits that read back as the number |
| TimeFormat.Render | wlfwifi/utils.py:92 | "[h:mm:ss]" reads back as h*3600 + m*60 + s |
| TimeFormat.SecToHms | wlfwifi/utils.py:82-92 | every negative duration gives "[endless]"; every other duration gives a rendering that reads back as the same number of seconds |
| TimeFormat.EndlessIsNotADuration | wlfwifi/utils.py:86-87 | "[endless]" is not the rendering of any duration |
| TimeFormat.HmsInjective | wlfwifi/utils.py:86-92 | different durations render differently |
| TimeFormat.HmsFields | wlfwifi/utils.py:88-92 | a rendering has unpadded hours, then minutes and seconds below 60 padded to two digits, and the fields recombine to the input |
| TimeFormat.HmsExample | wlfwifi/utils.py:82-92 | 3661 seconds renders as "[1:01:01]" |
| Commas.LoopIsGroup | wlfwifi/utils.py:204-208 | once the loop has run over every character, its output equals the right-to-left grouping into runs of three |
| Commas.GroupStrips | wlfwifi/utils.py:196-209 | removing the commas from the grouping of a comma-free string gives the string back |
| Commas.GroupCommaPositions | wlfwifi/utils.py:205-206 | in that grouping, a comma sits exactly where a multiple of four characters remain, so the first group has 1 to 3 characters and every later group has exactly 3 |
| Commas.GroupOfNumeral | wlfwifi/utils.py:196-209 | for n >= 0 the grouping of str(n) strips back to str(n), has three-digit groups, and leaves numbers below 1000 unchanged |
| Commas.AddCommas | wlfwifi/utils.py:196-209 | the loop's result is the grouping of str(n); for n >= 0 it strips back to str(n), has three-digit groups, and is str(n) itself below 1000 |
| Commas.NegativeQuirk | wlfwifi/utils.py:200-206 | the '-' of a negative number is grouped as a digit: -123 gives "-,123" |
| Commas.AddCommasSigned | wlfwifi/utils.py:196-209 | for every n, corrected grouping strips back to str(n); a negative keeps its '-' in front of three-digit groups; numbers of up to three digits come back unchanged |
| Commas.SignedAgreesOnNaturals | wlfwifi/utils.py:196-209 | the corrected grouping agrees with the source for every n >= 0 and gives -123 as "-123" |
| MacAddress.Candidate | wlfwifi/utils.py:131-135 | one attempt is the vendor prefix followed by ':' and three lower-case hex pairs built from the six nibbles |
| MacAddress.GenerateRandomMac | wlfwifi/utils.py:126-138 | a returned address never equals the input once both are lower-cased and have '-' turned into ':'; it starts with the vendor prefix and ends in three random lower-case hex pairs; a first draw that differs from the input is returned as it is; with twelve nibbles whose two blocks differ an address is always returned; fewer than six nibbles give none |
| MacAddress.GeneratedShape | wlfwifi/utils.py:126-138 | for an input of at least 8 characters the address is 17 characters long, its first 8 are the normalised input's first 8, and it has no ASCII upper-case letter |
| MacAddress.SecondDrawAccepted | wlfwifi/utils.py:136-137 | when the first draw reproduces the input, a second draw with different nibbles does not, so the retry succeeds |
| MacAddress.CandidateInjective | wlfwifi/utils.py:132-135 | different nibbles give different attempts, so at most one draw forces a retry |
| MacAddress.NoRetryUnlessSeventeen | wlfwifi/utils.py:131-137 | an input that is not 17 characters long is never reproduced, so the first attempt is accepted |
| MacAddress.FindDashedMac | wlfwifi/utils.py:114-117 | the leftmost position, at or after the start, where a space and six dash-joined alphanumeric pairs begin, or none |
| MacAddress.ParseIfconfigMac | wlfwifi/utils.py:112-120 | the result is "" if and only if no dashed address is present; otherwise it is the leftmost such address in colon form |
| MacAddress.GetMacAddress | wlfwifi/utils.py:105-123 | a failed `ifconfig` gives ""; otherwise the result is the parse of its output |
| MacAddress.ParseFindsPrintedMac | wlfwifi/utils.py:114-119 | an address printed with dashes after a space, with no earlier dashed address, is read back in colon form |
| MacAddress.ColonOutputYieldsNothing | wlfwifi/utils.py:114-120 | output with no dash, such as addresses printed with colons, gives "" |
| MacSession.MacAnonymize | wlfwifi/utils.py:141-171 | with either guard set nothing changes; otherwise (iface, old address) is recorded before anything else, and the interface is cycled to a generated address that keeps the vendor prefix and differs from the old one |
| MacSession.MacChangeBack | wlfwifi/utils.py:174-193 | with an empty recorded interface or address nothing changes; otherwise the recorded interface is cycled back to the recorded address and the record is kept |
| MacSession.RestoreAfterAnonymize | wlfwifi/utils.py:141-193 | anonymising then changing back leaves the interface at the address that was recorded, and every other interface as it was |
| MacSession.RestoreOriginal | wlfwifi/utils.py:141-193 | when the recorded address is the interface's current one, anonymising then changing back leaves every interface exactly as it was |
| MacSession.ChangeBackStable | wlfwifi/utils.py:174-193 | changing back twice leaves the addresses and the record as changing back once does |
| MacSession.ChangeBackWithoutRecord | wlfwifi/utils.py:148-181 | without a record, or after a switched-off anonymisation, changing back does nothing |
| FileOps.RemoveFile | wlfwifi/utils.py:53-62 | an existing, removable path is removed; an absent path or a refused removal leaves the file system unchanged |
| FileOps.RemoveAllExact | wlfwifi/utils.py:224-235 | removing a list of paths one by one removes exactly the listed, removable, existing paths, and keeps the content of every other file |
| FileOps.TempXorFilesExact | wlfwifi/utils.py:228-230 | a temporary-directory path is removed if and only if its name ends in ".xor" in any case |
| FileOps.CwdFilesExact | wlfwifi/utils.py:231-235 | a working-directory name is removed if and only if it matches `replay_*.cap` or `*.xor`, case-sensitively |
| FileOps.DeletionsAreTargets | wlfwifi/utils.py:223-235 | the ordered `remove_file` calls cover exactly the cleanup targets |
| FileOps.RemoveAirodumpFiles | wlfwifi/utils.py:223-235 | a file is gone after cleanup if and only if it existed, is a cleanup target, and its removal was not refused; every survivor keeps its content |
| FileOps.XorCaseRule | wlfwifi/utils.py:228-235 | "KEY.XOR" is removed from the temporary directory but not from the working directory |
| FileOps.Rename | wlfwifi/utils.py:27-50 | a refused rename raises and changes nothing, and so does a missing source unless `os.rename` reports EXDEV, in which case the copy fails and its clean-up may remove the destination; nothing succeeds without a source; an existing source is always moved when `os.rename` succeeds or the cross-device copy succeeds, and a failed copy raises the copy error; success puts the source's content at the destination, and the source is gone if and only if the rename moved it or its unlink succeeded; a successful rename of a path onto itself changes nothing; a failed copy keeps an existing source with its content, and when its clean-up succeeds leaves no destination; no other path is touched |
| FileOps.PartialCopyCanRemain | wlfwifi/utils.py:35-43 | a failed copy whose clean-up unlink also fails leaves the partial file at the destination |
| FileOps.MissingSourceAcrossMounts | wlfwifi/utils.py:33-43 | when the source is missing and `os.rename` reports EXDEV, the failed copy's clean-up removes a destination that existed, and nothing else changes |
| FileOps.CopyFailureDropsExistingDestination | wlfwifi/utils.py:37-43 | the clean-up after a failed copy removes a destination file that existed before the rename |
| ProgramLookup.ProgramExists | wlfwifi/utils.py:65-79 | a launch failure means absent; with empty stderr, the program is present if and only if stdout is non-blank; with non-blank stderr, it is present if and only if stderr lacks "no <program> in" |
| ProgramLookup.LookupExamples | wlfwifi/utils.py:69-79 | a path on stdout means present; two empty streams mean absent; a launch failure means absent |
| ProgramLookup.WhichNotFound | wlfwifi/utils.py:76 | a `which` not-found message on stderr means absent, even though stderr is not empty |

## Left out

- Process handling is not modelled: spawning processes, waiting on them, decoding their output with `errors="ignore"`, and logging. A subprocess's output is a string parameter. `None` stands for a launch that raised.
- `send_interrupt` and `print_and_exec` (utils.py:95-102, 212-220) are not modelled. They only forward a signal or a command to the operating system.
- The `check=True` failures of `subprocess.run` in `mac_anonymize` and `mac_change_back` are not modelled. In those the exception escapes after the record is written, and the host is then partly changed. The model takes every `ifconfig` call to succeed.
- How `mac_anonymize` reads the old address (utils.py:152-157) is not modelled. It takes the last word of the first output line; the model takes that address as a parameter.
- MacAddress.GenerateRandomMac: the source draws until the attempt differs from the input and always returns an address. The model draws from a finite nibble supply and gives `None` when the supply runs out. MacSession.MacAnonymize then records the old address but leaves the host unchanged.
- Commas.AddCommas: every integer is grouped. CPython's `str(n)` (utils.py:200) raises ValueError for numbers of more than 4300 digits under the default `int_max_str_digits`. The same applies to Commas.AddCommasSigned.
- TimeFormat.SecToHms: hours are computed by exact integer division. The source's `int(sec / 3600)` is floating point and differs only above 2^53 seconds.
- Case mapping is ASCII only. Python's `upper()` and `lower()` apply full Unicode case mapping, which can change a string's length and maps non-ASCII letters. The model leaves every non-ASCII character as it is.
- WpsCheck.WrongLengthNeverFlagged: holds under ASCII upper-casing only. In Python a 16-character BSSID ending in U+FB00 ("ﬀ") upper-cases to 17 characters ending in "FF" and can be flagged.
- MacAddress.GeneratedShape: the 17-character length and the absence of upper-case letters hold under ASCII lower-casing only. Python's `lower()` turns U+0130 into two code points, and the model keeps non-ASCII capitals such as 'À'.
- `Attack` subclasses are described by what each of their two methods does. Python's metaclass machinery, `WPAAttack`-style implementations and the attack lifecycle are not modelled. The contract is expressed as a subset type, not an abstract class.
- MacSession.ChangeBackWithoutRecord: assumes the caller has set `ORIGINAL_IFACE_MAC` to ("", "") beforehand. The source never initialises that slot, nor `DO_NOT_CHANGE_MAC` or `temp`. Without a prior `mac_anonymize`, `mac_change_back` raises AttributeError at utils.py:178.
- `config.py`, `core.py`, `__init__.py` and the entry points are not part of this model. Neither are the commented-out WPA filter in `wps_check_targets` (attacks.py:68-84) or `wpa_crack`.
- `remove_airodump_files` takes the directory listings as parameters. Their order decides the order of the `remove_file` calls but not which files go.
- FileOps.RemoveAirodumpFiles: assumes both directory listings succeed. `os.listdir` (utils.py:228, 231) raises on a missing directory, which aborts the cleanup after the four prefix files. Paths are compared as strings, so "k.xor" and "./k.xor" are different files in the model.
- FileOps.Rename: a `shutil.copy` with source equal to destination is taken to be reported as a failure through the copy-outcome parameter. It is not derived.
- Three source behaviours that a reader might not expect are modelled as written:
  - `bssid_regex` (attacks.py:59) accepts any 17-character run of hex digits and colons, with no six-pair shape.
  - `rename` (utils.py:36-43) leaves a partial file at the destination when the copy fails and the clean-up unlink fails too.
  - `get_mac_address` (utils.py:114-120) matches only dash-separated addresses, so output that prints addresses with colons gives "".

## Findings

| source | as written | input that shows it | evidently intended | confidence | as-written member | corrected member |
|---|---|---|---|---|---|---|
| wlfwifi/utils.py:200-206 | the comma test counts the '-' of a negative number as a digit | n = -123 gives "-,123" | thousands separators between digit groups only, "-123" | medium, not executed | Commas.NegativeQuirk | Commas.AddCommasSigned |

=== FILE: attack.dfy ===
/**
 * The `Attack` contract: every attack supplies `RunAttack` and `EndAttack`.
 *
 * An attack class is described by what it does with each of the two abstract
 * methods: it may leave it unoverridden, override it with a body that returns
 * its own value, or override it with a body that only defers to the base
 * implementation (`super().RunAttack()`). A class that leaves either method
 * unoverridden cannot be instantiated; the base implementations fail with
 * `NotImplemented`. `ConcreteAttack` is the type of classes that override
 * both, so only verified-complete classes can ever be run.
 */
module AttackContract {
  import opened Common

  /** The two phases of the contract. */
  datatype Phase = Run | End

  /** The body an overriding method has. */
  datatype Body<+V> = Returns(value: V) | DefersToBase

  /** What a class does with one abstract method. */
  datatype Override<+V> = NotOverridden | Overrides(body: Body<V>)

  /** A subclass of `Attack`, seen through its two methods. */
  datatype AttackClass<+V> = AttackClass(runAttack: Override<V>, endAttack: Override<V>)

  datatype AttackError =
    | AbstractClass(missing: set<Phase>)  // TypeError: can't instantiate an abstract class
    | NotImplemented(phase: Phase)        // NotImplementedError raised by the base body

  predicate IsConcrete<V>(c: AttackClass<V>)
  {
    c.runAttack.Overrides? && c.endAttack.Overrides?
  }

  /** Classes that override both methods: the only ones that can be instantiated. */
  type ConcreteAttack<V> = c: AttackClass<V> | IsConcrete(c)
    witness AttackClass(Overrides(DefersToBase), Overrides(DefersToBase))

  /** The abstract methods a class leaves unoverridden. */
  function AbstractMethods<V>(c: AttackClass<V>): (m: set<Phase>)
    ensures Run in m <==> c.runAttack.NotOverridden?
    ensures End in m <==> c.endAttack.NotOverridden?
  {
    (if c.runAttack.NotOverridden? then {Run} else {}) + (if c.endAttack.NotOverridden? then {End} else {})
  }

  /** `Cls()`: instantiation succeeds exactly for classes overriding both methods
      and otherwise names the methods still abstract. `Attack` itself is the
      class overriding neither. */
  function Instantiate<V>(c: AttackClass<V>): (r: Result<ConcreteAttack<V>, AttackError>)
    ensures r.Success? <==> c.runAttack.Overrides? && c.endAttack.Overrides?
    ensures r.Success? ==> r.value == c
    ensures r.Failure? ==> r.error.AbstractClass? && r.error.missing != {} && r.error.missing == AbstractMethods(c)
  {
    if IsConcrete(c) then Success(c) else Failure(AbstractClass(AbstractMethods(c)))
  }

  /** `Attack.RunAttack(self)`, the base body. */
  function BaseRunAttack<V>(): Result<V, AttackError>
  {
    Failure(NotImplemented(Run))
  }

  /** `Attack.EndAttack(self)`, the base body. */
  function BaseEndAttack<V>(): Result<V, AttackError>
  {
    Failure(NotImplemented(End))
  }

  function Invoke<V>(o: Override<V>, base: Result<V, AttackError>): Result<V, AttackError>
    requires o.Overrides?
  {
    match o.body
    case Returns(v) => Success(v)
    case DefersToBase => base
  }

  /** `attack.RunAttack()`: the subclass's own value, or `NotImplemented` when its
      override defers to the base. */
  function RunAttack<V>(a: ConcreteAttack<V>): (r: Result<V, AttackError>)
    ensures r.Success? <==> a.runAttack.body.Returns?
    ensures r.Success? ==> r.value == a.runAttack.body.value
    ensures r.Failure? ==> r.error == NotImplemented(Run)
  {
    Invoke(a.runAttack, BaseRunAttack())
  }

  /** `attack.EndAttack()`: the subclass's own value, or `NotImplemented` when its
      override defers to the base. */
  function EndAttack<V>(a: ConcreteAttack<V>): (r: Result<V, AttackError>)
    ensures r.Success? <==> a.endAttack.body.Returns?
    ensures r.Success? ==> r.value == a.endAttack.body.value
    ensures r.Failure? ==> r.error == NotImplemented(End)
  {
    Invoke(a.endAttack, BaseEndAttack())
  }

  /** The contract's test cases: `Attack()` and a subclass with no methods fail to
      instantiate naming both methods; a subclass overriding only `RunAttack`
      fails naming `EndAttack`; an override that defers to the base raises
      `NotImplemented`; a complete subclass returns its own values. */
  lemma ContractCases()
    ensures Instantiate<string>(AttackClass(NotOverridden, NotOverridden)) == Failure(AbstractClass({Run, End}))
    ensures Instantiate<string>(AttackClass(Overrides(Returns("running")), NotOverridden)) == Failure(AbstractClass({End}))
    ensures var c: AttackClass<string> := AttackClass(Overrides(DefersToBase), Overrides(Returns("ended")));
      Instantiate(c).Success? && RunAttack(c) == Failure(NotImplemented(Run)) && EndAttack(c) == Success("ended")
    ensures var c: AttackClass<string> := AttackClass(Overrides(Returns("attack running")), Overrides(Returns("attack ended")));
      RunAttack(c) == Success("attack running") && EndAttack(c) == Success("attack ended")
  {
    assert AbstractMethods<string>(AttackClass(NotOverridden, NotOverridden)) == {Run, End};
    assert AbstractMethods<string>(AttackClass(Overrides(Returns("running")), NotOverridden)) == {End};
  }
}

=== FILE: commas.dfy ===
/**
 * `add_commas`: digit grouping of `str(n)`. The function walks the numeral left
 * to right and puts a comma before position `i` whenever `i > 0` and the number
 * of characters from `i` to the end is a multiple of three. The reference
 * definition below groups from the right instead: the last three characters
 * form a group, and the rest is grouped the same way.
 */
module Commas {
  import opened Strings

  /** Right-to-left grouping into runs of three, the leading run 1 to 3 long. */
  function Group(s: string): string
    decreases |s|
  {
    if |s| <= 3 then s else Group(s[..|s| - 3]) + "," + s[|s| - 3..]
  }

  /** The test `add_commas` makes for a comma before position `i` of a
      numeral of length `len`. */
  predicate CommaBefore(len: int, i: int)
  {
    (len - i) % 3 == 0 && i != 0
  }

  /** What the loop appends before the character at position `i`. */
  function Separator(len: int, i: int): string
  {
    if CommaBefore(len, i) then "," else ""
  }

  /** The output of `add_commas`' loop after its first `i` iterations. */
  function CommaPrefix(s: string, i: nat): string
    requires i <= |s|
  {
    if i == 0 then "" else CommaPrefix(s, i - 1) + Separator(|s|, i - 1) + [s[i - 1]]
  }

  /** A comma sits exactly where a multiple of four characters remain, so
      every group after the first has three characters and the first has one
      to three. */
  predicate ThreeDigitGroups(r: string)
  {
    && 1 <= |r| % 4 <= 3
    && forall i :: 0 <= i < |r| ==> (r[i] == ',' <==> (|r| - i) % 4 == 0)
  }

  predicate NoCommas(s: string)
  {
    forall i | 0 <= i < |s| :: s[i] != ','
  }

  function StripCommas(s: string): (r: string)
    ensures NoCommas(r)
    decreases |s|
  {
    if |s| == 0 then "" else StripCommas(s[..|s| - 1]) + (if s[|s| - 1] == ',' then "" else [s[|s| - 1]])
  }

  /** Dropping the last three characters does not move the comma positions
      before them: `(|s| - j) % 3` only depends on `|s| % 3`. */
  lemma {:induction false} CommaPrefixDropGroup(s: string, i: nat)
    requires 3 < |s| && i <= |s| - 3
    ensures CommaPrefix(s, i) == CommaPrefix(s[..|s| - 3], i)
  {
    if i > 0 {
      CommaPrefixDropGroup(s, i - 1);
    }
  }

  /** A numeral of at most three characters gets no comma. */
  lemma {:induction false} CommaPrefixShort(s: string, i: nat)
    requires |s| <= 3 && i <= |s|
    ensures CommaPrefix(s, i) == s[..i]
  {
    if i > 0 {
      CommaPrefixShort(s, i - 1);
      assert s[..i] == s[..i - 1] + [s[i - 1]];
    }
  }

  /** One iteration of `add_commas`' loop. */
  lemma CommaPrefixStep(s: string, i: nat)
    requires i < |s|
    ensures CommaPrefix(s, i + 1) == CommaPrefix(s, i) + Separator(|s|, i) + [s[i]]
  {
  }

  /** The last three characters as a sequence of three. */
  lemma LastThree(s: string)
    requires 3 <= |s|
    ensures s[|s| - 3..] == [s[|s| - 3], s[|s| - 2], s[|s| - 1]]
  {
  }

  /** Three loop steps whose separators are ",", "" and "" append a comma and
      the three characters; stated on plain variables so that the sequence
      algebra stays separate from the unfolding of `CommaPrefix`. */
  lemma AppendThree(a: string, b: string, c: string, d: string, s1: string, s2: string, s3: string, x: char, y: char, z: char)
    requires b == a + s1 + [x] && c == b + s2 + [y] && d == c + s3 + [z]
    requires s1 == "," && s2 == "" && s3 == ""
    ensures d == a + "," + [x, y, z]
  {
  }

  /** Of the last three positions, only the first gets a comma. */
  lemma LastGroupSeparators(n: int)
    requires 3 < n
    ensures Separator(n, n - 3) == "," && Separator(n, n - 2) == "" && Separator(n, n - 1) == ""
  {
  }

  /** The loop's last three iterations put a comma before the final group. */
  lemma CommaPrefixLastGroup(s: string)
    requires 3 < |s|
    ensures CommaPrefix(s, |s|) == CommaPrefix(s, |s| - 3) + "," + [s[|s| - 3], s[|s| - 2], s[|s| - 1]]
  {
    var n := |s|;
    LastGroupSeparators(n);
    CommaPrefixStep(s, n - 3);
    CommaPrefixStep(s, n - 2);
    CommaPrefixStep(s, n - 1);
    AppendThree(CommaPrefix(s, n - 3), CommaPrefix(s, n - 2), CommaPrefix(s, n - 1), CommaPrefix(s, n),
      Separator(n, n - 3), Separator(n, n - 2), Separator(n, n - 1), s[n - 3], s[n - 2], s[n - 1]);
  }

  /** The left-to-right loop of `add_commas` computes the right-to-left
      grouping. */
  lemma {:induction false} LoopIsGroup(s: string)
    ensures CommaPrefix(s, |s|) == Group(s)
    decreases |s|
  {
    if |s| <= 3 {
      CommaPrefixShort(s, |s|);
      assert s[..|s|] == s;
    } else {
      var n := |s|;
      var t := s[..n - 3];
      assert CommaPrefix(s, n - 3) == Group(t) by {
        CommaPrefixDropGroup(s, n - 3);
        LoopIsGroup(t);
      }
      assert CommaPrefix(s, n) == CommaPrefix(s, n - 3) + "," + s[n - 3..] by {
        CommaPrefixLastGroup(s);
        LastThree(s);
      }
    }
  }

  lemma {:induction false} StripCommasAppend(a: string, b: string)
    ensures StripCommas(a + b) == StripCommas(a) + StripCommas(b)
    decreases |b|
  {
    if |b| > 0 {
      var b' := b[..|b| - 1];
      assert (a + b)[..|a + b| - 1] == a + b';
      StripCommasAppend(a, b');
    } else {
      assert a + b == a;
    }
  }

  lemma {:induction false} StripCommasNone(s: string)
    requires NoCommas(s)
    ensures StripCommas(s) == s
    decreases |s|
  {
    if |s| > 0 {
      StripCommasNone(s[..|s| - 1]);
    }
  }

  lemma StripLoneComma()
    ensures StripCommas(",") == ""
  {
    assert ","[..0] == "";
  }

  lemma StripAcrossComma(g: string, tail: string)
    requires NoCommas(tail)
    ensures StripCommas(g + "," + tail) == StripCommas(g) + tail
  {
    var a := g + ",";
    StripCommasAppend(a, tail);
    StripCommasAppend(g, ",");
    StripLoneComma();
    StripCommasNone(tail);
    assert StripCommas(a) == StripCommas(g);
    assert StripCommas(a + tail) == StripCommas(g) + tail;
  }

  /** Removing the commas of a grouping gives the comma-free numeral back. */
  lemma {:induction false} GroupStrips(s: string)
    requires NoCommas(s)
    ensures StripCommas(Group(s)) == s
    decreases |s|
  {
    if |s| <= 3 {
      StripCommasNone(s);
    } else {
      var t := s[..|s| - 3];
      var tail := s[|s| - 3..];
      GroupStrips(t);
      StripAcrossComma(Group(t), tail);
      assert t + tail == s;
    }
  }

  /** Appending a comma and a comma-free group of three keeps the shape. */
  lemma GroupsExtend(g: string, tail: string)
    requires ThreeDigitGroups(g) && |tail| == 3 && NoCommas(tail)
    ensures ThreeDigitGroups(g + "," + tail)
  {
    var r := g + "," + tail;
    assert |r| == |g| + 4;
    forall i | 0 <= i < |r|
      ensures r[i] == ',' <==> (|r| - i) % 4 == 0
    {
      if i < |g| {
        assert r[i] == g[i];
        ShiftByFour(|g| - i);
      } else if i > |g| {
        assert r[i] == tail[i - |g| - 1];
        assert 1 <= |r| - i <= 3;
      } else {
        assert |r| - i == 4;
      }
    }
    ShiftByFour(|g|);
  }

  lemma ShiftByFour(x: int)
    ensures (x + 4) % 4 == x % 4
  {
  }

  /** In the grouping of a non-empty comma-free numeral, a comma sits exactly
      where a multiple of four characters remain, so every group after the
      first has three characters, and the first group has 1 to 3. */
  lemma {:induction false} GroupCommaPositions(s: string)
    requires 0 < |s| && NoCommas(s)
    ensures ThreeDigitGroups(Group(s))
    decreases |s|
  {
    if 3 < |s| {
      var t := s[..|s| - 3];
      GroupCommaPositions(t);
      GroupsExtend(Group(t), s[|s| - 3..]);
    }
  }

  /**
   * `add_commas(n)`: its loop over `str(n)`. Its result is the
   * right-to-left grouping of `str(n)`; for `n >= 0` removing the commas gives
   * `str(n)` back and each comma is followed by exactly three digits; numbers
   * below 1000 come back unchanged. A negative `n` keeps the quirk of grouping
   * the sign as a digit.
   */
  method AddCommas(n: int) returns (r: string)
    ensures r == Group(IntToString(n))
    ensures n >= 0 ==> StripCommas(r) == Dec(n)
    ensures n >= 0 ==> ThreeDigitGroups(r)
    ensures 0 <= n < 1000 ==> r == Dec(n)
  {
    var strn := IntToString(n);
    var lenn := |strn|;
    var i := 0;
    r := "";
    while i < lenn
      invariant 0 <= i <= lenn
      invariant r == CommaPrefix(strn, i)
    {
      if (lenn - i) % 3 == 0 && i != 0 {
        r := r + ",";
      }
      r := r + [strn[i]];
      i := i + 1;
    }
    LoopIsGroup(strn);
    GroupOfInt(n);
  }

  /** The facts about `Group(str(n))` the method promises, for any `n`. */
  lemma GroupOfInt(n: int)
    ensures n >= 0 ==> StripCommas(Group(IntToString(n))) == Dec(n)
    ensures n >= 0 ==> ThreeDigitGroups(Group(IntToString(n)))
    ensures 0 <= n < 1000 ==> Group(IntToString(n)) == Dec(n)
  {
    if n >= 0 {
      GroupOfNumeral(n);
    }
  }

  /** What the grouping of `str(n)` looks like for `n >= 0`. */
  lemma GroupOfNumeral(n: nat)
    ensures StripCommas(Group(Dec(n))) == Dec(n)
    ensures ThreeDigitGroups(Group(Dec(n)))
    ensures n < 1000 ==> Group(Dec(n)) == Dec(n)
  {
    var d := Dec(n);
    DecParses(n);
    assert NoCommas(d);
    GroupStrips(d);
    GroupCommaPositions(d);
  }

  /** The sign of a negative number is grouped like a digit, so a comma
      follows the '-' when the digit count is a multiple of three: -123 comes
      out as "-,123". */
  lemma NegativeQuirk()
    ensures Group(IntToString(-123)) == "-,123"
  {
    assert Dec(1) == "1";
    assert Dec(12) == "12";
    assert Dec(123) == "123";
    var s := "-123";
    assert IntToString(-123) == s;
    assert s[..1] == "-" && s[1..] == "123";
    assert Group(s) == Group("-") + "," + "123";
  }

  /** Grouping that keeps the sign out of the digit runs: the digits of `|n|`
      are grouped and a '-' goes in front for negatives. Removing the commas
      gives `str(n)` back for every `n`. */
  function AddCommasSigned(n: int): (r: string)
    ensures StripCommas(r) == IntToString(n)
    ensures n < 0 ==> 0 < |r| && r[0] == '-' && SignedGroups(r)
    ensures n >= 0 ==> ThreeDigitGroups(r)
    ensures -1000 < n < 1000 ==> r == IntToString(n)
  {
    if n < 0 then
      var m: nat := -n;
      NegativeGrouping(m);
      assert IntToString(n) == "-" + Dec(m);
      "-" + Group(Dec(m))
    else
      GroupOfNumeral(n);
      assert IntToString(n) == Dec(n);
      Group(Dec(n))
  }

  /** The facts about the signed grouping of `-m`, with `m > 0`. */
  lemma NegativeGrouping(m: nat)
    requires m > 0
    ensures var r := "-" + Group(Dec(m));
      && StripCommas(r) == "-" + Dec(m)
      && 0 < |r| && r[0] == '-' && SignedGroups(r)
      && (m < 1000 ==> r == "-" + Dec(m))
  {
    var g := Group(Dec(m));
    GroupOfNumeral(m);
    SignStrip(g);
    SignKeepsGroups(g);
  }

  /** After the sign, the characters follow the three-digit grouping. */
  predicate SignedGroups(r: string)
  {
    && 0 < |r|
    && 1 <= (|r| - 1) % 4 <= 3
    && forall i :: 1 <= i < |r| ==> (r[i] == ',' <==> (|r| - i) % 4 == 0)
  }

  lemma SignKeepsGroups(g: string)
    requires ThreeDigitGroups(g)
    ensures SignedGroups("-" + g)
  {
    var r := "-" + g;
    forall i | 1 <= i < |r|
      ensures r[i] == ',' <==> (|r| - i) % 4 == 0
    {
      assert r[i] == g[i - 1];
    }
  }

  lemma SignStrip(g: string)
    ensures StripCommas("-" + g) == "-" + StripCommas(g)
  {
    StripCommasAppend("-", g);
    assert "-"[..0] == "";
  }

  /** The signed grouping agrees with `add_commas` on every `n >= 0` and writes
      -123 as "-123". */
  lemma SignedAgreesOnNaturals(n: int)
    ensures n >= 0 ==> AddCommasSigned(n) == Group(IntToString(n))
    ensures AddCommasSigned(-123) == "-123"
  {
    assert IntToString(-123) == "-123" by {
      assert Dec(123) == "123" by {
        assert Dec(1) == "1";
        assert Dec(12) == "12";
      }
    }
  }
}

=== FILE: common.dfy ===
/** Failure-carrying wrappers shared by every module of the model. */
module Common {

  /** A value that may be absent: a failed subprocess, a regex without a match. */
  datatype Option<+T> = None | Some(value: T)

  /** The outcome of an operation that can raise: `Failure` carries the error kind. */
  datatype Result<+R, +E> = Success(value: R) | Failure(error: E)

  function Min(a: int, b: int): int
  {
    if a <= b then a else b
  }
}

=== FILE: files.dfy ===
/**
 * File operations over an abstract file system, a map from path to content:
 * `remove_file`, the deletion set of `remove_airodump_files`, and `rename`
 * with its cross-device fallback. Outcomes the operating system decides are
 * parameters.
 */
module FileOps {
  import opened Common
  import opened Strings

  type Bytes = seq<bv8>

  type FileSystem = map<string, Bytes>

  /**
   * `remove_file(path)`. `refused` holds the paths whose removal the operating
   * system rejects for a reason other than absence (a permission error, say);
   * those are logged and kept. An absent path is a silent no-op.
   */
  function RemoveFile(fs: FileSystem, refused: set<string>, path: string): (r: FileSystem)
    ensures path in fs && path !in refused ==> r == fs - {path}
    ensures path !in fs || path in refused ==> r == fs
  {
    if path in fs && path !in refused then fs - {path} else fs
  }

  /** `remove_file` applied to each path in turn. */
  function RemoveAll(fs: FileSystem, refused: set<string>, paths: seq<string>): (r: FileSystem)
    decreases |paths|
  {
    if |paths| == 0 then fs else RemoveAll(RemoveFile(fs, refused, paths[0]), refused, paths[1..])
  }

  /** Removing a list of paths one by one removes exactly the listed,
      removable paths and keeps every other file with its content. */
  lemma {:induction false} RemoveAllExact(fs: FileSystem, refused: set<string>, paths: seq<string>)
    ensures forall p :: p in RemoveAll(fs, refused, paths) <==> p in fs && (p !in paths || p in refused)
    ensures forall p :: p in RemoveAll(fs, refused, paths) ==> RemoveAll(fs, refused, paths)[p] == fs[p]
    decreases |paths|
  {
    if |paths| > 0 {
      RemoveAllExact(RemoveFile(fs, refused, paths[0]), refused, paths[1..]);
      forall p
        ensures p in paths <==> p == paths[0] || p in paths[1..]
      {
        if p in paths {
          var k :| 0 <= k < |paths| && paths[k] == p;
          if k > 0 {
            assert paths[1..][k - 1] == p;
          }
        }
      }
    }
  }

  /** The four files of an airodump capture session with this prefix. */
  function AirodumpFiles(prefix: string): seq<string>
  {
    [prefix + "-01.cap", prefix + "-01.csv", prefix + "-01.kismet.csv", prefix + "-01.kismet.netxml"]
  }

  /** Names in the temporary directory whose lower-cased form ends in ".xor",
      joined to the directory path. */
  function TempXorFiles(temp: string, listing: seq<string>): seq<string>
    decreases |listing|
  {
    if |listing| == 0 then []
    else (if EndsWith(Lower(listing[0]), ".xor") then [temp + listing[0]] else []) + TempXorFiles(temp, listing[1..])
  }

  /** What the working-directory loop removes for one name: `replay_*.cap`, then
      `*.xor`, both compared case-sensitively. */
  function CwdRemovals(name: string): seq<string>
  {
    (if StartsWith(name, "replay_") && EndsWith(name, ".cap") then [name] else [])
    + (if EndsWith(name, ".xor") then [name] else [])
  }

  function CwdFiles(listing: seq<string>): seq<string>
    decreases |listing|
  {
    if |listing| == 0 then [] else CwdRemovals(listing[0]) + CwdFiles(listing[1..])
  }

  /** The `remove_file` calls `remove_airodump_files(prefix)` makes, in order.
      `temp` is `RUN_CONFIG.temp`; the listings are `os.listdir` of the temporary
      and of the working directory. */
  function AirodumpDeletions(prefix: string, temp: string, tempListing: seq<string>, cwdListing: seq<string>): seq<string>
  {
    AirodumpFiles(prefix) + TempXorFiles(temp, tempListing) + CwdFiles(cwdListing)
  }

  /** The set of cleanup targets, stated independently of the order of calls. */
  ghost predicate IsCleanupTarget(p: string, prefix: string, temp: string, tempListing: seq<string>, cwdListing: seq<string>)
  {
    || p in {prefix + "-01.cap", prefix + "-01.csv", prefix + "-01.kismet.csv", prefix + "-01.kismet.netxml"}
    || (exists n :: n in tempListing && EndsWith(Lower(n), ".xor") && p == temp + n)
    || (p in cwdListing && ((StartsWith(p, "replay_") && EndsWith(p, ".cap")) || EndsWith(p, ".xor")))
  }

  lemma {:induction false} TempXorFilesExact(temp: string, listing: seq<string>, p: string)
    ensures p in TempXorFiles(temp, listing) <==> exists n :: n in listing && EndsWith(Lower(n), ".xor") && p == temp + n
    decreases |listing|
  {
    if |listing| > 0 {
      TempXorFilesExact(temp, listing[1..], p);
      if exists n :: n in listing && EndsWith(Lower(n), ".xor") && p == temp + n {
        var n :| n in listing && EndsWith(Lower(n), ".xor") && p == temp + n;
        if n != listing[0] {
          assert n in listing[1..];
        }
      }
    }
  }

  lemma {:induction false} CwdFilesExact(listing: seq<string>, p: string)
    ensures p in CwdFiles(listing) <==> p in listing && ((StartsWith(p, "replay_") && EndsWith(p, ".cap")) || EndsWith(p, ".xor"))
    decreases |listing|
  {
    if |listing| > 0 {
      CwdFilesExact(listing[1..], p);
      if p in listing && p != listing[0] {
        assert p in listing[1..];
      }
    }
  }

  /** The ordered calls cover exactly the cleanup targets. */
  lemma DeletionsAreTargets(prefix: string, temp: string, tempListing: seq<string>, cwdListing: seq<string>, p: string)
    ensures p in AirodumpDeletions(prefix, temp, tempListing, cwdListing) <==> IsCleanupTarget(p, prefix, temp, tempListing, cwdListing)
  {
    TempXorFilesExact(temp, tempListing, p);
    CwdFilesExact(cwdListing, p);
  }

  /**
   * `remove_airodump_files(prefix)`: after the cleanup a file is gone exactly
   * when it existed, is a cleanup target, and its removal was not refused;
   * every surviving file keeps its content.
   */
  function RemoveAirodumpFiles(fs: FileSystem, refused: set<string>, prefix: string, temp: string,
                               tempListing: seq<string>, cwdListing: seq<string>): (r: FileSystem)
    ensures forall p :: p in r <==> p in fs && (!IsCleanupTarget(p, prefix, temp, tempListing, cwdListing) || p in refused)
    ensures forall p :: p in r ==> r[p] == fs[p]
  {
    var paths := AirodumpDeletions(prefix, temp, tempListing, cwdListing);
    RemoveAllExact(fs, refused, paths);
    forall p
      ensures p in paths <==> IsCleanupTarget(p, prefix, temp, tempListing, cwdListing)
    {
      DeletionsAreTargets(prefix, temp, tempListing, cwdListing, p);
    }
    RemoveAll(fs, refused, paths)
  }

  /** ".xor" is matched case-insensitively in the temporary directory but
      case-sensitively in the working directory. */
  lemma XorCaseRule()
    ensures "/tmp/w/KEY.XOR" in AirodumpDeletions("cap", "/tmp/w/", ["KEY.XOR"], [])
    ensures "KEY.XOR" !in AirodumpDeletions("cap", "/tmp/w/", [], ["KEY.XOR"])
  {
    var l := Lower("KEY.XOR");
    assert l[3] == '.' && l[4] == 'x' && l[5] == 'o' && l[6] == 'r';
    assert l[3..] == ".xor";
    assert EndsWith(l, ".xor");
    assert ["KEY.XOR"][1..] == [];
    assert "/tmp/w/" + "KEY.XOR" == "/tmp/w/KEY.XOR";
    assert TempXorFiles("/tmp/w/", ["KEY.XOR"]) == ["/tmp/w/KEY.XOR"];
    assert !EndsWith("KEY.XOR", ".xor");
    assert !StartsWith("KEY.XOR", "replay_");
    assert CwdFiles(["KEY.XOR"]) == [];
  }

  // ---------------------------------------------------------------------------
  // `rename(old, new)`

  /** What `os.rename` does. Linux compares the mounts of the two parent
      directories before it looks up the source, so a missing source can still
      give `CrossDevice`; it can never give `Renamed`. */
  datatype RenameOutcome = Renamed | CrossDevice | RenameRefused

  /** What `shutil.copy` does on the cross-device path: it completes, or fails
      leaving `partial` (if anything) at the destination. */
  datatype CopyOutcome = Copied | CopyFailed(partial: Option<Bytes>)

  /** The exception `rename` re-raises. */
  datatype RenameError = RenameFailed | CopyError

  datatype RenameResult = RenameResult(fs: FileSystem, error: Option<RenameError>)

  /**
   * `rename(src, dst)`. An error from `os.rename` other than EXDEV is
   * re-raised. On EXDEV the file is copied; if the copy fails the destination
   * is unlinked (`unlinkDstOk` says whether that worked) and the error
   * re-raised; if it succeeds the source is unlinked, a failure there being
   * only logged (`unlinkSrcOk`). Copying a missing source fails before the
   * destination is opened, so only the clean-up unlink touches the file system.
   * A `Renamed` outcome for a missing source cannot happen and is read as the
   * ENOENT failure.
   */
  function Rename(fs: FileSystem, src: string, dst: string, outcome: RenameOutcome, copy: CopyOutcome,
                  unlinkDstOk: bool, unlinkSrcOk: bool): (r: RenameResult)
    ensures outcome == RenameRefused ==> r == RenameResult(fs, Some(RenameFailed))
    ensures src !in fs && outcome == Renamed ==> r == RenameResult(fs, Some(RenameFailed))
    ensures src !in fs && outcome == CrossDevice ==> r.error == Some(CopyError)
    ensures r.error.None? ==> src in fs
    ensures r.error.None? && src != dst ==> dst in r.fs && r.fs[dst] == fs[src]
    ensures r.error.None? && src != dst ==> (src !in r.fs <==> outcome == Renamed || unlinkSrcOk)
    ensures outcome == Renamed && src == dst ==> r.fs == fs
    ensures r.error == Some(CopyError) && unlinkDstOk ==> dst !in r.fs
    ensures r.error == Some(CopyError) && !unlinkDstOk && (src !in fs || copy == CopyFailed(None)) ==> r.fs == fs
    ensures r.error == Some(CopyError) && src in fs && src != dst ==> src in r.fs && r.fs[src] == fs[src]
    ensures src in fs && outcome == Renamed ==> r.error.None?
    ensures src in fs && outcome == CrossDevice ==> (r.error.None? <==> copy == Copied)
    ensures src in fs && outcome == CrossDevice && copy.CopyFailed? ==> r.error == Some(CopyError)
    ensures forall p :: p != src && p != dst ==> (p in r.fs <==> p in fs) && (p in fs ==> r.fs[p] == fs[p])
  {
    match outcome
      case RenameRefused => RenameResult(fs, Some(RenameFailed))
      case Renamed =>
        if src !in fs then RenameResult(fs, Some(RenameFailed))
        else RenameResult((fs - {src})[dst := fs[src]], None)
      case CrossDevice =>
        if src !in fs then RenameResult(if unlinkDstOk then fs - {dst} else fs, Some(CopyError))
        else match copy
        case Copied =>
          var copied := fs[dst := fs[src]];
          if unlinkSrcOk then RenameResult(copied - {src}, None)
          else RenameResult(copied, None)
        case CopyFailed(partial) =>
          var written := if partial.Some? then fs[dst := partial.value] else fs;
          RenameResult(if unlinkDstOk then written - {dst} else written, Some(CopyError))
  }

  /** A failed copy whose clean-up unlink also fails leaves the partial file at
      the destination. */
  lemma PartialCopyCanRemain(fs: FileSystem, src: string, dst: string, partial: Bytes)
    requires src in fs
    ensures var r := Rename(fs, src, dst, CrossDevice, CopyFailed(Some(partial)), false, true);
      r.error == Some(CopyError) && dst in r.fs && r.fs[dst] == partial
  {
  }

  /** A missing source on a different mount from the destination reaches the
      copy, which fails; its clean-up then removes a destination file that was
      already there. */
  lemma MissingSourceAcrossMounts(fs: FileSystem, src: string, dst: string, copy: CopyOutcome)
    requires src !in fs && dst in fs
    ensures var r := Rename(fs, src, dst, CrossDevice, copy, true, true);
      r.error == Some(CopyError) && dst !in r.fs && r.fs == fs - {dst}
  {
  }

  /** The clean-up after a failed copy unlinks whatever is at the destination,
      so a file that was already there before the rename is lost even when the
      copy wrote nothing. */
  lemma CopyFailureDropsExistingDestination(fs: FileSystem, src: string, dst: string)
    requires src in fs && dst in fs
    ensures var r := Rename(fs, src, dst, CrossDevice, CopyFailed(None), true, true);
      r.error == Some(CopyError) && dst !in r.fs
  {
  }
}

=== FILE: mac.dfy ===
/**
 * MAC address helpers: `generate_random_mac`, which keeps the vendor prefix
 * (the first eight characters, normalised) and appends three random
 * colon-separated hex pairs, and the address parse inside `get_mac_address`.
 *
 * Randomness is a caller-supplied supply of nibbles; each attempt consumes
 * six. `generate_random_mac` retries while the result equals the normalised
 * input; the model retries on the rest of the supply and gives `None` once it
 * runs out.
 */
module MacAddress {
  import opened Common
  import opened Strings

  type Nibble = x: int | 0 <= x < 16

  const HexDigits: string := "0123456789abcdef"

  predicate IsLowerHex(c: char) { IsDigit(c) || 'a' <= c <= 'f' }

  /** `"0123456789abcdef"[n]` */
  function HexChar(n: Nibble): (c: char)
    ensures IsLowerHex(c)
    ensures c == HexDigits[n]
  {
    if n < 10 then ('0' as int + n) as char else ('a' as int + (n - 10)) as char
  }

  /** `mac.lower().replace("-", ":")` */
  function Normalize(mac: string): (r: string)
    ensures |r| == |mac|
  {
    Replace(Lower(mac), '-', ':')
  }

  /** `old_mac[:8].lower().replace("-", ":")` */
  function VendorPrefix(oldMac: string): (r: string)
    ensures |r| == Min(8, |oldMac|)
  {
    Normalize(oldMac[..Min(8, |oldMac|)])
  }

  /** ":xx:xx:xx" with lower-case hex digits: the part the generator fills in. */
  predicate IsRandomSuffix(t: string)
  {
    && |t| == 9
    && forall k | 0 <= k < 9 :: if k % 3 == 0 then t[k] == ':' else IsLowerHex(t[k])
  }

  /** The three random pairs of one attempt. */
  function RandomSuffix(n: seq<Nibble>): (t: string)
    requires |n| >= 6
    ensures IsRandomSuffix(t)
  {
    [':', HexChar(n[0]), HexChar(n[1]), ':', HexChar(n[2]), HexChar(n[3]), ':', HexChar(n[4]), HexChar(n[5])]
  }

  /** One attempt of `generate_random_mac`'s `for i in range(0, 6)` loop, on
      six nibbles. */
  function Candidate(oldMac: string, n: seq<Nibble>): (r: string)
    requires |n| >= 6
    ensures |r| == |VendorPrefix(oldMac)| + 9
    ensures r[..|VendorPrefix(oldMac)|] == VendorPrefix(oldMac)
    ensures r[|VendorPrefix(oldMac)|..] == RandomSuffix(n)
    ensures IsRandomSuffix(r[|VendorPrefix(oldMac)|..])
  {
    var p := VendorPrefix(oldMac);
    var r := p + RandomSuffix(n);
    assert r[..|p|] == p;
    assert r[|p|..] == RandomSuffix(n);
    r
  }

  /**
   * `generate_random_mac(old_mac)`: the first attempt that differs from the
   * normalised input. Any address it returns starts with the vendor prefix,
   * ends in three random lower-case hex pairs and never equals the input once
   * normalised.
   */
  function GenerateRandomMac(oldMac: string, nibbles: seq<Nibble>): (r: Option<string>)
    ensures r.Some? ==> r.value != Normalize(oldMac)
    ensures r.Some? ==> |r.value| == |VendorPrefix(oldMac)| + 9
    ensures r.Some? ==> r.value[..|VendorPrefix(oldMac)|] == VendorPrefix(oldMac)
    ensures r.Some? ==> IsRandomSuffix(r.value[|VendorPrefix(oldMac)|..])
    ensures |nibbles| < 6 ==> r.None?
    ensures |nibbles| >= 6 && Candidate(oldMac, nibbles[..6]) != Normalize(oldMac) ==>
      r == Some(Candidate(oldMac, nibbles[..6]))
    ensures |nibbles| >= 12 && nibbles[..6] != nibbles[6..12] ==> r.Some?
    decreases |nibbles|
  {
    if |nibbles| < 6 then None
    else
      var c := Candidate(oldMac, nibbles[..6]);
      if c == Normalize(oldMac) then
        SecondDrawAccepted(oldMac, nibbles);
        GenerateRandomMac(oldMac, nibbles[6..])
      else Some(c)
  }

  /** When the first draw reproduces the input, a second draw with different
      nibbles cannot: the retry then succeeds. */
  lemma SecondDrawAccepted(oldMac: string, nibbles: seq<Nibble>)
    requires |nibbles| >= 6 && Candidate(oldMac, nibbles[..6]) == Normalize(oldMac)
    ensures |nibbles| >= 12 && nibbles[..6] != nibbles[6..12] ==>
      Candidate(oldMac, nibbles[6..][..6]) != Normalize(oldMac)
  {
    if |nibbles| >= 12 && nibbles[..6] != nibbles[6..12] {
      var rest := nibbles[6..];
      assert rest[..6] == nibbles[6..12];
      if Candidate(oldMac, rest[..6]) == Normalize(oldMac) {
        CandidateInjective(oldMac, nibbles[..6], rest[..6]);
        assert false;
      }
    }
  }

  /** With an input of at least 8 characters the result is 17 characters long and
      contains no ASCII upper-case letter, whatever the case and separator of the input. */
  lemma GeneratedShape(oldMac: string, nibbles: seq<Nibble>)
    requires 8 <= |oldMac|
    requires GenerateRandomMac(oldMac, nibbles).Some?
    ensures var m := GenerateRandomMac(oldMac, nibbles).value;
      |m| == 17 && m[..8] == Normalize(oldMac[..8]) && forall i :: 0 <= i < |m| ==> !IsAsciiUpper(m[i])
  {
    var m := GenerateRandomMac(oldMac, nibbles).value;
    var p := VendorPrefix(oldMac);
    forall i | 0 <= i < |m|
      ensures !IsAsciiUpper(m[i])
    {
      if i < 8 {
        assert m[i] == p[i];
      } else {
        assert m[i] == m[8..][i - 8];
      }
    }
  }

  /** Different nibbles give different attempts, so at most one choice of six
      nibbles reproduces the input and forces a retry. */
  lemma CandidateInjective(oldMac: string, a: seq<Nibble>, b: seq<Nibble>)
    requires |a| >= 6 && |b| >= 6
    requires Candidate(oldMac, a) == Candidate(oldMac, b)
    ensures a[..6] == b[..6]
  {
    var p := |VendorPrefix(oldMac)|;
    var sa, sb := RandomSuffix(a), RandomSuffix(b);
    assert sa == Candidate(oldMac, a)[p..] == Candidate(oldMac, b)[p..] == sb;
    assert sa[1] == sb[1] && sa[2] == sb[2] && sa[4] == sb[4];
    assert sa[5] == sb[5] && sa[7] == sb[7] && sa[8] == sb[8];
  }

  /** An input that is not 17 characters long can never be reproduced: the first
      attempt is always accepted. */
  lemma NoRetryUnlessSeventeen(oldMac: string, nibbles: seq<Nibble>)
    requires |oldMac| != 17 && |nibbles| >= 6
    ensures GenerateRandomMac(oldMac, nibbles) == Some(Candidate(oldMac, nibbles[..6]))
  {
    if |oldMac| >= 8 {
      assert |Candidate(oldMac, nibbles[..6])| == 17;
    } else {
      assert |Candidate(oldMac, nibbles[..6])| == |oldMac| + 9;
    }
  }

  // ---------------------------------------------------------------------------
  // The address parse inside `get_mac_address`:
  // `re.search(" ([a-zA-Z0-9]{2}-){5}[a-zA-Z0-9]{2}")`, then '-' -> ':'.

  const DashedLength: nat := 17

  /** Six dash-joined pairs of `[a-zA-Z0-9]`, preceded by a space, start at `i`. */
  predicate DashedMacAt(s: string, i: nat)
  {
    && i + 1 + DashedLength <= |s|
    && s[i] == ' '
    && forall k | 0 <= k < DashedLength :: if k % 3 == 2 then s[i + 1 + k] == '-' else IsAlnum(s[i + 1 + k])
  }

  /** The leftmost match position at or after `from`, as `re.search` finds it. */
  function FindDashedMac(s: string, from: nat): (r: Option<nat>)
    ensures r.Some? ==> from <= r.value && DashedMacAt(s, r.value)
    ensures r.Some? ==> forall j :: from <= j < r.value ==> !DashedMacAt(s, j)
    ensures r.None? ==> forall j :: from <= j ==> !DashedMacAt(s, j)
    decreases |s| - from
  {
    if |s| < from + 1 + DashedLength then None
    else if DashedMacAt(s, from) then Some(from)
    else FindDashedMac(s, from + 1)
  }

  /** A colon-separated address: six pairs of `[a-zA-Z0-9]` joined by ':'. */
  predicate IsColonMac(m: string)
  {
    && |m| == DashedLength
    && forall k | 0 <= k < DashedLength :: if k % 3 == 2 then m[k] == ':' else IsAlnum(m[k])
  }

  /** The MAC parse of `get_mac_address` on the `ifconfig` output: the first
      space-preceded dashed address with its dashes turned into colons, or "" when
      there is none. */
  function ParseIfconfigMac(output: string): (r: string)
    ensures r == "" <==> forall j :: !DashedMacAt(output, j)
    ensures r != "" ==> IsColonMac(r)
    ensures r != "" ==> exists i: nat ::
      && DashedMacAt(output, i)
      && r == Replace(output[i + 1..i + 1 + DashedLength], '-', ':')
      && forall j :: 0 <= j < i ==> !DashedMacAt(output, j)
  {
    match FindDashedMac(output, 0)
    case None => ""
    case Some(i) => Replace(output[i + 1..i + 1 + DashedLength], '-', ':')
  }

  /** `get_mac_address(iface)` given the `ifconfig` output, `None` when running it
      raised: a failure reads as "". */
  function GetMacAddress(output: Option<string>): (r: string)
    ensures output.None? ==> r == ""
    ensures output.Some? ==> r == ParseIfconfigMac(output.value)
  {
    match output
    case None => ""
    case Some(out) => ParseIfconfigMac(out)
  }

  /** Round trip: an address printed with dashes after a space, in output with no
      earlier dashed address, is read back in colon form. */
  lemma ParseFindsPrintedMac(pre: string, m: string, post: string)
    requires IsColonMac(m)
    requires forall j :: 0 <= j < |pre| ==> !DashedMacAt(pre + " " + Replace(m, ':', '-') + post, j)
    ensures ParseIfconfigMac(pre + " " + Replace(m, ':', '-') + post) == m
  {
    var d := Replace(m, ':', '-');
    var s := pre + " " + d + post;
    var i := |pre|;
    assert s[i + 1..i + 1 + DashedLength] == d;
    assert DashedMacAt(s, i);
    var r := ParseIfconfigMac(s);
    assert FindDashedMac(s, 0) == Some(i);
    assert Replace(d, '-', ':') == m;
  }

  /** Output that prints the address with colons, as current `ifconfig` does,
      contains no dash and yields "". */
  lemma ColonOutputYieldsNothing(output: string)
    requires forall i :: 0 <= i < |output| ==> output[i] != '-'
    ensures ParseIfconfigMac(output) == ""
  {
    forall j: nat
      ensures !DashedMacAt(output, j)
    {
      if j + 1 + DashedLength <= |output| {
        assert output[j + 1 + 2] != '-';
      }
    }
  }
}

=== FILE: mac_session.dfy ===
/**
 * The interface-identity session of `mac_anonymize` and `mac_change_back`.
 *
 * The session keeps the record `ORIGINAL_IFACE_MAC = (iface, mac)`. wlfwifi
 * never initialises that slot; the model starts from ("", ""), the value the
 * guard of `mac_change_back` treats as "nothing recorded". Anonymising records
 * the interface and its current address, then takes the interface down, sets a
 * generated address and brings it up again; changing back does the same with
 * the recorded address. The host is an abstract map from interface name to
 * address plus the log of `ifconfig` commands issued.
 */
module MacSession {
  import opened Common
  import opened MacAddress

  /** `RUN_CONFIG.ORIGINAL_IFACE_MAC` */
  datatype IfaceRecord = IfaceRecord(iface: string, mac: string)

  /** The `ifconfig` invocations that change interface state. */
  datatype Command = Down(iface: string) | SetMac(iface: string, mac: string) | Up(iface: string)

  datatype Host = Host(macs: map<string, string>, log: seq<Command>)

  datatype Session = Session(record: IfaceRecord, host: Host)

  const NoRecord := IfaceRecord("", "")

  /** The three-command cycle `ifconfig iface down; ifconfig iface hw ether mac; ifconfig iface up`. */
  function SetInterfaceMac(h: Host, iface: string, mac: string): (r: Host)
    ensures r.macs == h.macs[iface := mac]
    ensures r.log == h.log + [Down(iface), SetMac(iface, mac), Up(iface)]
  {
    Host(h.macs[iface := mac], h.log + [Down(iface), SetMac(iface, mac), Up(iface)])
  }

  /**
   * `mac_anonymize(iface)`. `doNotChangeMac` is `RUN_CONFIG.DO_NOT_CHANGE_MAC`,
   * `toolExists` is `program_exists("ifconfig")`, `oldMac` is the address read
   * from `ifconfig`, `nibbles` the random supply. With either guard set nothing
   * happens. Otherwise `(iface, oldMac)` is recorded first; then, if the supply
   * yields an address, the interface is cycled to that address, which keeps the
   * vendor prefix and differs from `oldMac`.
   */
  function MacAnonymize(s: Session, iface: string, doNotChangeMac: bool, toolExists: bool,
                        oldMac: string, nibbles: seq<Nibble>): (r: Session)
    ensures doNotChangeMac || !toolExists ==> r == s
    ensures !doNotChangeMac && toolExists ==> r.record == IfaceRecord(iface, oldMac)
    ensures !doNotChangeMac && toolExists ==>
      match GenerateRandomMac(oldMac, nibbles)
      case None => r.host == s.host
      case Some(m) =>
        && m != Normalize(oldMac) && m[..|VendorPrefix(oldMac)|] == VendorPrefix(oldMac)
        && r.host.macs == s.host.macs[iface := m]
        && r.host.log == s.host.log + [Down(iface), SetMac(iface, m), Up(iface)]
  {
    if doNotChangeMac then s
    else if !toolExists then s
    else
      var record := IfaceRecord(iface, oldMac);
      match GenerateRandomMac(oldMac, nibbles)
      case None => Session(record, s.host)
      case Some(m) => Session(record, SetInterfaceMac(s.host, iface, m))
  }

  /** `mac_change_back()`: nothing when either recorded field is empty;
      otherwise the recorded interface is cycled back to the recorded address.
      The record itself is kept. */
  function MacChangeBack(s: Session): (r: Session)
    ensures s.record.iface == "" || s.record.mac == "" ==> r == s
    ensures s.record.iface != "" && s.record.mac != "" ==>
      && r.record == s.record
      && r.host.macs == s.host.macs[s.record.iface := s.record.mac]
      && r.host.log == s.host.log + [Down(s.record.iface), SetMac(s.record.iface, s.record.mac), Up(s.record.iface)]
  {
    if s.record.iface == "" || s.record.mac == "" then s
    else Session(s.record, SetInterfaceMac(s.host, s.record.iface, s.record.mac))
  }

  /** Anonymising and then changing back leaves the interface at the address
      that was recorded, and every other interface as it was. */
  lemma RestoreAfterAnonymize(s: Session, iface: string, oldMac: string, nibbles: seq<Nibble>)
    requires iface != "" && oldMac != ""
    ensures var r := MacChangeBack(MacAnonymize(s, iface, false, true, oldMac, nibbles));
      && r.host.macs == s.host.macs[iface := oldMac]
      && r.record == IfaceRecord(iface, oldMac)
  {
  }

  /** When the address handed to anonymisation is the interface's current one,
      changing back afterwards leaves every interface exactly as it was. */
  lemma RestoreOriginal(s: Session, iface: string, oldMac: string, nibbles: seq<Nibble>)
    requires iface != "" && oldMac != ""
    requires iface in s.host.macs && s.host.macs[iface] == oldMac
    ensures MacChangeBack(MacAnonymize(s, iface, false, true, oldMac, nibbles)).host.macs == s.host.macs
  {
    RestoreAfterAnonymize(s, iface, oldMac, nibbles);
  }

  /** Changing back twice leaves the interfaces as changing back once does. */
  lemma ChangeBackStable(s: Session)
    ensures MacChangeBack(MacChangeBack(s)).host.macs == MacChangeBack(s).host.macs
    ensures MacChangeBack(MacChangeBack(s)).record == MacChangeBack(s).record
  {
  }

  /** A session that never anonymised, or whose anonymisation was switched off,
      changes nothing when changing back. */
  lemma ChangeBackWithoutRecord(s: Session, iface: string, toolExists: bool, oldMac: string, nibbles: seq<Nibble>)
    requires s.record == NoRecord
    ensures MacChangeBack(s) == s
    ensures MacChangeBack(MacAnonymize(s, iface, true, toolExists, oldMac, nibbles)) == s
  {
  }
}

=== FILE: models.dfy ===
/**
 * The discovery-session entities: an access point (`Target`), a device seen
 * talking to one (`Client`) and a packet capture on disk (`CapFile`).
 * Every field is stored exactly as given: no case folding, no range check on
 * the channel, no validation of paths or handshake counts.
 */
module Models {

  /** A discovered access point. `wps` is the one field later overwritten by the
      WPS classification step. */
  datatype Target = Target(bssid: string, essid: string, channel: int, encryption: string, wps: bool)

  /** A client device and the BSSID of the access point it is associated with
      ("" when it is not yet associated). */
  datatype Client = Client(mac: string, targetBssid: string)

  /** A capture file and the number of handshakes seen in it. */
  datatype CapFile = CapFile(path: string, handshakes: int)

  /** `Target(bssid, essid, channel, encryption, wps)`: every argument is kept verbatim. */
  function NewTarget(bssid: string, essid: string, channel: int, encryption: string, wps: bool): (t: Target)
    ensures t.bssid == bssid && t.essid == essid && t.channel == channel
    ensures t.encryption == encryption && t.wps == wps
  {
    Target(bssid, essid, channel, encryption, wps)
  }

  /** `Client(mac, target_bssid)`: both arguments kept verbatim, an empty BSSID
      and a MAC equal to the BSSID included. */
  function NewClient(mac: string, targetBssid: string): (c: Client)
    ensures c.mac == mac && c.targetBssid == targetBssid
  {
    Client(mac, targetBssid)
  }

  /** `CapFile(path, handshakes)`: kept verbatim, negative counts included. */
  function NewCapFile(path: string, handshakes: int): (c: CapFile)
    ensures c.path == path && c.handshakes == handshakes
  {
    CapFile(path, handshakes)
  }

  /** No normalisation on construction: a lower-case BSSID, a lower-case
      encryption name, an empty or non-ASCII ESSID and channels 0 and 149 all
      read back unchanged. */
  lemma NoNormalisation()
    ensures NewTarget("aa:bb:cc:dd:ee:ff", "LowerCase", 6, "WPA2", true).bssid == "aa:bb:cc:dd:ee:ff"
    ensures NewTarget("00:11:22:33:44:55", "MixedCase", 6, "wpa2", true).encryption == "wpa2"
    ensures NewTarget("33:44:55:66:77:88", "", 9, "WPA2", false).essid == ""
    ensures NewTarget("55:66:77:88:99:AA", "\U{30AB}\U{30D5}\U{30A7} WiFi", 11, "WPA2", false).essid == "\U{30AB}\U{30D5}\U{30A7} WiFi"
    ensures NewTarget("77:88:99:AA:BB:CC", "ZeroChannel", 0, "WPA2", false).channel == 0
    ensures NewTarget("66:77:88:99:AA:BB", "5GHz_Network", 149, "WPA2", false).channel == 149
    ensures NewClient("AA:BB:CC:DD:EE:FF", "").targetBssid == ""
    ensures NewCapFile("/tmp/test.cap", -1).handshakes == -1
    ensures NewCapFile("C:\\Users\\test\\capture.cap", 1).path == "C:\\Users\\test\\capture.cap"
  {
  }
}

=== FILE: programs.dfy ===
/**
 * `program_exists(program)`: the decision made on the output of
 * `which program`. `lookup` is `(stdout, stderr)` of that process, or `None`
 * when launching it raised.
 */
module ProgramLookup {
  import opened Common
  import opened Strings

  /** The message `which` prints on stderr when the program is not on the path. */
  function NotFoundMarker(program: string): string
  {
    "no " + program + " in"
  }

  /**
   * Nothing on either stream: absent. Something on stdout and nothing on
   * stderr: present. Anything on stderr: present unless stderr carries the
   * not-found marker. A launch failure: absent.
   */
  function ProgramExists(program: string, lookup: Option<(string, string)>): (r: bool)
    ensures lookup.None? ==> !r
    ensures lookup.Some? && IsBlank(lookup.value.1) ==> (r <==> !IsBlank(lookup.value.0))
    ensures lookup.Some? && !IsBlank(lookup.value.1) ==> (r <==> !Contains(lookup.value.1, NotFoundMarker(program)))
  {
    match lookup
    case None => false
    case Some((out, err)) =>
      if IsBlank(out) && IsBlank(err) then false
      else if !IsBlank(out) && IsBlank(err) then true
      else !(IsBlank(err) || Contains(err, NotFoundMarker(program)))
  }

  /** The outcomes of the `program_exists` tests: a path on stdout means present, two
      empty streams mean absent, a launch failure means absent. */
  lemma LookupExamples()
    ensures ProgramExists("python", Some(("/usr/bin/python", "")))
    ensures !ProgramExists("nonexistent_program", Some(("", "")))
    ensures !ProgramExists("python", None)
  {
    assert !IsBlank("/usr/bin/python") by { assert !IsSpace("/usr/bin/python"[0]); }
  }

  /** `which` reporting the program missing on stderr means absent, even though
      stderr is not empty. */
  lemma WhichNotFound()
    ensures !ProgramExists("tshark", Some(("", "which: no tshark in (/usr/bin)")))
  {
    var marker := NotFoundMarker("tshark");
    var err := "which: " + marker + " (/usr/bin)";
    assert err == "which: no tshark in (/usr/bin)";
    assert !IsSpace(err[0]);
    assert err[7..19] == marker;
    ContainsAt(err, NotFoundMarker("tshark"), 7);
  }
}

=== FILE: strings.dfy ===
/**
 * Character and string helpers used across the model: ASCII case mapping,
 * character replacement, prefix/suffix/substring tests, whitespace tests
 * and the decimal rendering of integers as Python's `str(n)` produces it.
 */
module Strings {

  predicate IsAsciiUpper(c: char) { 'A' <= c <= 'Z' }

  predicate IsAsciiLower(c: char) { 'a' <= c <= 'z' }

  predicate IsDigit(c: char) { '0' <= c <= '9' }

  /** `[a-zA-Z0-9]` */
  predicate IsAlnum(c: char) { IsAsciiUpper(c) || IsAsciiLower(c) || IsDigit(c) }

  /** The bytes Python's `bytes.strip()` removes. */
  predicate IsSpace(c: char) { c == ' ' || c == '\t' || c == '\n' || c == '\r' || c == '\U{0B}' || c == '\U{0C}' }

  function UpperChar(c: char): char
  {
    if IsAsciiLower(c) then (c as int - 32) as char else c
  }

  function LowerChar(c: char): char
  {
    if IsAsciiUpper(c) then (c as int + 32) as char else c
  }

  /** `s.upper()` on the ASCII range. */
  function Upper(s: string): (r: string)
    ensures |r| == |s|
    ensures forall i :: 0 <= i < |s| ==> r[i] == UpperChar(s[i])
  {
    seq(|s|, i requires 0 <= i < |s| => UpperChar(s[i]))
  }

  /** `s.lower()` on the ASCII range. */
  function Lower(s: string): (r: string)
    ensures |r| == |s|
    ensures forall i :: 0 <= i < |s| ==> r[i] == LowerChar(s[i])
  {
    seq(|s|, i requires 0 <= i < |s| => LowerChar(s[i]))
  }

  /** `s.replace(a, b)` for single characters `a` and `b`. */
  function Replace(s: string, a: char, b: char): (r: string)
    ensures |r| == |s|
    ensures forall i :: 0 <= i < |s| ==> r[i] == (if s[i] == a then b else s[i])
  {
    seq(|s|, i requires 0 <= i < |s| => if s[i] == a then b else s[i])
  }

  predicate StartsWith(s: string, prefix: string)
  {
    |prefix| <= |s| && s[..|prefix|] == prefix
  }

  predicate EndsWith(s: string, suffix: string)
  {
    |suffix| <= |s| && s[|s| - |suffix|..] == suffix
  }

  /** Python's `sub in s` for strings. */
  predicate Contains(s: string, sub: string)
    decreases |s|
  {
    StartsWith(s, sub) || (0 < |s| && Contains(s[1..], sub))
  }

  /** An occurrence at any position makes `sub in s` hold. */
  lemma {:induction false} ContainsAt(s: string, sub: string, i: nat)
    requires i + |sub| <= |s| && s[i..i + |sub|] == sub
    ensures Contains(s, sub)
    decreases i
  {
    if i > 0 {
      assert s[1..][i - 1..i - 1 + |sub|] == sub;
      ContainsAt(s[1..], sub, i - 1);
    } else {
      assert s[..|sub|] == sub;
    }
  }

  /** `s.strip() == ""` */
  predicate IsBlank(s: string)
  {
    forall i | 0 <= i < |s| :: IsSpace(s[i])
  }

  predicate AllDigits(s: string)
  {
    forall i | 0 <= i < |s| :: IsDigit(s[i])
  }

  function DigitChar(d: nat): (c: char)
    requires d < 10
    ensures IsDigit(c)
  {
    "0123456789"[d]
  }

  function DigitValue(c: char): nat
    requires IsDigit(c)
  {
    c as int - '0' as int
  }

  /** `str(n)` for `n >= 0`: the shortest decimal numeral of `n`. */
  function Dec(n: nat): string
  {
    if n < 10 then [DigitChar(n)] else Dec(n / 10) + [DigitChar(n % 10)]
  }

  /** `str(n)` for any integer: a leading '-' for negatives. */
  function IntToString(n: int): string
  {
    if n < 0 then "-" + Dec(-n) else Dec(n)
  }

  /** The value of a string of decimal digits, most significant first; "" reads as 0. */
  function ParseDigits(s: string): nat
    requires AllDigits(s)
  {
    if |s| == 0 then 0 else ParseDigits(s[..|s| - 1]) * 10 + DigitValue(s[|s| - 1])
  }

  /** Reading back the numeral `Dec(n)` yields `n`, and the numeral has 1 to 3
      digits exactly when `n` is below 1000. */
  lemma {:induction false} DecParses(n: nat)
    ensures 1 <= |Dec(n)|
    ensures AllDigits(Dec(n))
    ensures ParseDigits(Dec(n)) == n
    ensures |Dec(n)| <= 1 <==> n < 10
    ensures |Dec(n)| <= 2 <==> n < 100
    ensures |Dec(n)| <= 3 <==> n < 1000
    decreases n
  {
    if n >= 10 {
      DecParses(n / 10);
      var d := Dec(n);
      assert d[..|d| - 1] == Dec(n / 10);
      assert DigitValue(DigitChar(n % 10)) == n % 10;
    } else {
      assert DigitValue(DigitChar(n)) == n;
    }
  }
}

=== FILE: time_format.dfy ===
/**
 * `sec_to_hms`: a duration in seconds rendered as "[h:mm:ss]", or
 * "[endless]" for any negative duration. Hours are unpadded and unbounded;
 * minutes and seconds are zero-padded to two digits.
 */
module TimeFormat {
  import opened Common
  import opened Strings

  /** `"%02d" % n` for `0 <= n < 100`. */
  function Pad2(n: nat): (r: string)
    requires n < 100
    ensures |r| == 2 && AllDigits(r) && ParseDigits(r) == n
  {
    DecParses(n);
    if n < 10 then "0" + Dec(n) else Dec(n)
  }

  const Endless: string := "[endless]"

  /** "[H:MM:SS]" for the given fields; reading it back recombines them. */
  function Render(h: nat, m: nat, s: nat): (r: string)
    requires m < 60 && s < 60
    ensures ParseHms(r) == Some(h * 3600 + m * 60 + s)
  {
    var hs, ms, ss := Dec(h), Pad2(m), Pad2(s);
    DecParses(h);
    var r := "[" + hs + ":" + ms + ":" + ss + "]";
    var n := |hs|;
    assert |r| == n + 8;
    assert r[1..n + 1] == hs;
    assert r[n + 2..n + 4] == ms;
    assert r[n + 5..n + 7] == ss;
    assert r[0] == '[' && r[n + 1] == ':' && r[n + 4] == ':' && r[n + 7] == ']';
    r
  }

  /** `sec_to_hms(sec)`: "[endless]" for every negative duration; otherwise a
      rendering that reads back as `sec`, with minutes and seconds below 60.
      Python computes `int(sec / 3600)` in floating point; here the division is
      exact. */
  function SecToHms(sec: int): (r: string)
    ensures sec <= -1 ==> r == Endless
    ensures sec >= 0 ==> ParseHms(r) == Some(sec)
  {
    if sec <= -1 then Endless
    else
      var rest := sec % 3600;
      Render(sec / 3600, rest / 60, rest % 60)
  }

  /** Reads a rendering "[H:MM:SS]" back into seconds: `H` is one or more digits,
      `MM` and `SS` are two digits below 60. Anything else, "[endless]" included,
      reads as `None`. */
  function ParseHms(r: string): Option<nat>
  {
    if |r| < 9 || r[0] != '[' || r[|r| - 1] != ']' || r[|r| - 4] != ':' || r[|r| - 7] != ':' then None
    else
      var h := r[1..|r| - 7];
      var m := r[|r| - 6..|r| - 4];
      var s := r[|r| - 3..|r| - 1];
      if !AllDigits(h) || !AllDigits(m) || !AllDigits(s) then None
      else if 60 <= ParseDigits(m) || 60 <= ParseDigits(s) then None
      else Some(ParseDigits(h) * 3600 + ParseDigits(m) * 60 + ParseDigits(s))
  }

  /** The endless marker is distinct from every finite rendering. */
  lemma EndlessIsNotADuration()
    ensures ParseHms(Endless) == None
  {
  }

  /** Different non-negative durations render differently. */
  lemma HmsInjective(a: nat, b: nat)
    requires SecToHms(a) == SecToHms(b)
    ensures a == b
  {
  }


  /** The shape of a finite rendering: unpadded hours, then minutes and seconds
      below 60 padded to two digits, recombining to `sec`. */
  lemma HmsFields(sec: nat)
    ensures exists h: nat, m: nat, s: nat ::
      && m < 60 && s < 60 && h * 3600 + m * 60 + s == sec
      && SecToHms(sec) == "[" + Dec(h) + ":" + Pad2(m) + ":" + Pad2(s) + "]"
  {
    var h, m, s := sec / 3600, sec % 3600 / 60, sec % 3600 % 60;
    assert SecToHms(sec) == "[" + Dec(h) + ":" + Pad2(m) + ":" + Pad2(s) + "]";
  }

  /** The `sec_to_hms` test value 3661 renders as "[1:01:01]". */
  lemma HmsExample()
    ensures SecToHms(3661) == "[1:01:01]"
  {
    assert SecToHms(3661) == Render(1, 1, 1);
    assert Dec(1) == "1" && Pad2(1) == "01";
  }
}

=== FILE: wps.dfy ===
/**
 * The WPS classification step of `wps_check_targets`: scan the packet
 * inspector's output for address-shaped tokens and overwrite every target's
 * `wps` flag with "its upper-cased BSSID is among the tokens".
 *
 * The token pattern is the one the code compiles, `[A-F0-9:]{17}` with
 * IGNORECASE: any run of 17 hex digits and colons, not necessarily six
 * colon-separated pairs. `findall` scans left to right and does not overlap
 * its matches.
 */
module WpsCheck {
  import opened Common
  import opened Strings
  import opened Models

  const TokenLength: nat := 17

  /** `[A-F0-9:]` under IGNORECASE. */
  predicate IsTokenChar(c: char)
  {
    IsDigit(c) || ('A' <= c <= 'F') || ('a' <= c <= 'f') || c == ':'
  }

  /** The pattern matches the 17 characters starting at `i`. */
  predicate TokenAt(s: string, i: nat)
  {
    i + TokenLength <= |s| && forall k | i <= k < i + TokenLength :: IsTokenChar(s[k])
  }

  /** Start positions of the matches `findall` reports when it starts scanning at
      `from`: strictly increasing, never overlapping, each a real match. */
  function MatchStarts(s: string, from: nat): (r: seq<nat>)
    ensures forall k :: 0 <= k < |r| ==> from <= r[k] && TokenAt(s, r[k])
    ensures forall k :: 0 <= k < |r| - 1 ==> r[k] + TokenLength <= r[k + 1]
    decreases |s| - from
  {
    if |s| < from + TokenLength then []
    else if TokenAt(s, from) then [from] + MatchStarts(s, from + TokenLength)
    else MatchStarts(s, from + 1)
  }

  /** Every place the pattern matches lies inside a reported match that starts
      at or before it: the scan never skips a match except by consuming it. */
  lemma {:induction false} MatchStartsCover(s: string, from: nat, j: nat)
    requires from <= j && TokenAt(s, j)
    ensures exists k :: 0 <= k < |MatchStarts(s, from)| && MatchStarts(s, from)[k] <= j < MatchStarts(s, from)[k] + TokenLength
    decreases |s| - from
  {
    var r := MatchStarts(s, from);
    if TokenAt(s, from) {
      assert r[0] == from;
      if j < from + TokenLength {
        assert r[0] <= j < r[0] + TokenLength;
      } else {
        MatchStartsCover(s, from + TokenLength, j);
        var r' := MatchStarts(s, from + TokenLength);
        var k :| 0 <= k < |r'| && r'[k] <= j < r'[k] + TokenLength;
        assert r[k + 1] == r'[k];
      }
    } else {
      assert from != j;
      MatchStartsCover(s, from + 1, j);
    }
  }

  /** Positions before every reported match that are not covered by an earlier
      one hold no match: the reported matches are the leftmost ones. */
  lemma MatchStartsLeftmost(s: string, from: nat, k: nat, q: nat)
    requires k < |MatchStarts(s, from)|
    requires from <= q < MatchStarts(s, from)[k]
    requires k == 0 || MatchStarts(s, from)[k - 1] + TokenLength <= q
    ensures !TokenAt(s, q)
  {
    var r := MatchStarts(s, from);
    if TokenAt(s, q) {
      MatchStartsCover(s, from, q);
      var k' :| 0 <= k' < |r| && r[k'] <= q < r[k'] + TokenLength;
      if k' < k {
        StrictlyOrdered(s, from, k', k - 1);
      } else {
        StrictlyOrdered(s, from, k, k');
      }
    }
  }

  /** The match starts are ordered and spaced by at least the token length. */
  lemma StrictlyOrdered(s: string, from: nat, a: nat, b: nat)
    requires a <= b < |MatchStarts(s, from)|
    ensures MatchStarts(s, from)[a] + (b - a) * TokenLength <= MatchStarts(s, from)[b]
    decreases b - a
  {
    if a < b {
      StrictlyOrdered(s, from, a + 1, b);
    }
  }

  /** `[bssid.upper() for bssid in bssid_regex.findall(stdout)]` */
  function Tokens(stdout: string): (r: seq<string>)
    ensures |r| == |MatchStarts(stdout, 0)|
    ensures forall k :: 0 <= k < |r| ==>
      var p := MatchStarts(stdout, 0)[k]; r[k] == Upper(stdout[p..p + TokenLength])
  {
    var starts := MatchStarts(stdout, 0);
    seq(|starts|, k requires 0 <= k < |starts| => Upper(stdout[starts[k]..starts[k] + TokenLength]))
  }

  /** `for t in targets: t.wps = t.bssid.upper() in bssids` */
  function Classify(targets: seq<Target>, tokens: seq<string>): (r: seq<Target>)
    ensures |r| == |targets|
    ensures forall i :: 0 <= i < |r| ==> r[i] == targets[i].(wps := Upper(targets[i].bssid) in tokens)
  {
    seq(|targets|, i requires 0 <= i < |targets| => targets[i].(wps := Upper(targets[i].bssid) in tokens))
  }

  /**
   * `wps_check_targets(targets, cap_file)` with the world passed in:
   * `toolExists` is `program_exists("tshark")`, `capExists` is
   * `os.path.exists(cap_file)`, and `stdout` is the inspector's decoded output,
   * `None` when launching it raised (the exception is caught and logged).
   */
  function WpsCheckTargets(targets: seq<Target>, toolExists: bool, capExists: bool, stdout: Option<string>): (r: seq<Target>)
    ensures |r| == |targets|
    ensures forall i :: 0 <= i < |r| ==> r[i] == targets[i].(wps := r[i].wps)
    ensures !toolExists || |targets| == 0 || !capExists || stdout.None? ==> r == targets
    ensures toolExists && capExists && stdout.Some? ==>
      forall i :: 0 <= i < |r| ==> (r[i].wps <==> Upper(targets[i].bssid) in Tokens(stdout.value))
  {
    if !toolExists then targets
    else if |targets| == 0 || !capExists then targets
    else match stdout
      case None => targets
      case Some(out) => Classify(targets, Tokens(out))
  }

  /** Some reported match of `stdout`, upper-cased, equals `u`. */
  ghost predicate IsMatchOf(stdout: string, u: string)
  {
    var starts := MatchStarts(stdout, 0);
    exists k :: 0 <= k < |starts| && Upper(stdout[starts[k]..starts[k] + TokenLength]) == u
  }

  /** A target's new flag says exactly that some reported match equals its BSSID
      once both are upper-cased. */
  lemma FlagMeansMatch(targets: seq<Target>, stdout: string, i: nat)
    requires i < |targets|
    ensures var r := WpsCheckTargets(targets, true, true, Some(stdout));
      r[i].wps <==> IsMatchOf(stdout, Upper(targets[i].bssid))
  {
    var r := WpsCheckTargets(targets, true, true, Some(stdout));
    var ts := Tokens(stdout);
    if r[i].wps {
      var k :| 0 <= k < |ts| && ts[k] == Upper(targets[i].bssid);
      assert Upper(stdout[MatchStarts(stdout, 0)[k]..MatchStarts(stdout, 0)[k] + TokenLength]) == Upper(targets[i].bssid);
    }
  }

  /** Running the step twice on the same output gives the flags of running it once:
      the overwrite does not depend on the previous flag. */
  lemma Idempotent(targets: seq<Target>, toolExists: bool, capExists: bool, stdout: Option<string>)
    ensures var once := WpsCheckTargets(targets, toolExists, capExists, stdout);
      WpsCheckTargets(once, toolExists, capExists, stdout) == once
  {
    var once := WpsCheckTargets(targets, toolExists, capExists, stdout);
    var twice := WpsCheckTargets(once, toolExists, capExists, stdout);
    assert |twice| == |once|;
    forall i | 0 <= i < |once|
      ensures twice[i] == once[i]
    {
      assert once[i].bssid == targets[i].bssid;
    }
  }

  /** The previous flag is irrelevant: two target lists that differ only in their
      `wps` flags classify to the same list. */
  lemma OverwriteIgnoresPriorFlag(a: seq<Target>, b: seq<Target>, stdout: string)
    requires |a| == |b| && 0 < |a|
    requires forall i :: 0 <= i < |a| ==> b[i] == a[i].(wps := b[i].wps)
    ensures WpsCheckTargets(a, true, true, Some(stdout)) == WpsCheckTargets(b, true, true, Some(stdout))
  {
    var ra := WpsCheckTargets(a, true, true, Some(stdout));
    var rb := WpsCheckTargets(b, true, true, Some(stdout));
    forall i | 0 <= i < |a|
      ensures ra[i] == rb[i]
    {
      assert a[i].bssid == b[i].bssid;
    }
  }

  /** Matching ignores case: targets whose BSSIDs agree up to case get the same flag. */
  lemma CaseInsensitive(targets: seq<Target>, stdout: string, i: nat, j: nat)
    requires i < |targets| && j < |targets|
    requires Upper(targets[i].bssid) == Upper(targets[j].bssid)
    ensures var r := WpsCheckTargets(targets, true, true, Some(stdout)); r[i].wps == r[j].wps
  {
  }

  /** Output without any 17-character run of hex digits and colons, the empty
      output included, clears every flag. */
  lemma NoTokenClearsAll(targets: seq<Target>, stdout: string)
    requires 0 < |targets|
    requires forall p: nat :: !TokenAt(stdout, p)
    ensures forall i :: 0 <= i < |targets| ==> !WpsCheckTargets(targets, true, true, Some(stdout))[i].wps
  {
  }

  /** A BSSID that is not 17 characters long can never be flagged. */
  lemma WrongLengthNeverFlagged(targets: seq<Target>, stdout: string, i: nat)
    requires i < |targets| && |targets[i].bssid| != TokenLength
    ensures !WpsCheckTargets(targets, true, true, Some(stdout))[i].wps
  {
  }

  /** The first record of the inspector's output, an address followed by the
      separator, is always reported. */
  lemma FirstRecordFound(m: string, rest: string)
    requires |m| == TokenLength && forall k | 0 <= k < |m| :: IsTokenChar(m[k])
    ensures Upper(m) in Tokens(m + "," + rest)
  {
    var s := m + "," + rest;
    assert s[..TokenLength] == m;
    assert TokenAt(s, 0);
    assert MatchStarts(s, 0)[0] == 0;
    assert Tokens(s)[0] == Upper(m);
  }

  /** Two targets, one output record: the listed address is flagged, the other
      target loses the flag it had. */
  lemma TwoTargetScenario()
    ensures WpsCheckTargets(
      [Target("00:11:22:33:44:55", "Net1", 6, "WPA2", false), Target("AA:BB:CC:DD:EE:FF", "Net2", 11, "WPA2", true)],
      true, true, Some("00:11:22:33:44:55,0\n"))
      == [Target("00:11:22:33:44:55", "Net1", 6, "WPA2", true), Target("AA:BB:CC:DD:EE:FF", "Net2", 11, "WPA2", false)]
  {
    var out := "00:11:22:33:44:55,0\n";
    FirstRecordFound("00:11:22:33:44:55", "0\n");
    assert out[17] == ',';
    assert !TokenAt(out, 1) && !TokenAt(out, 2) && !TokenAt(out, 3);
    assert MatchStarts(out, 0) == [0];
    assert out[0..17] == "00:11:22:33:44:55";
    assert Upper("00:11:22:33:44:55") == "00:11:22:33:44:55";
    assert Tokens(out) == ["00:11:22:33:44:55"];
    assert Upper("AA:BB:CC:DD:EE:FF")[0] == 'A';
  }

  /** The pattern is not the six-pair address shape: seventeen hex digits with
      no colon at all form a token too. */
  lemma BareHexRunIsToken()
    ensures Tokens("0123456789abcdef0") == ["0123456789ABCDEF0"]
  {
    var out := "0123456789abcdef0";
    assert TokenAt(out, 0);
    assert MatchStarts(out, 0) == [0];
    assert out[0..17] == out;
    assert Upper(out) == "0123456789ABCDEF0";
  }

  /** Matches do not realign on address boundaries: a hex digit and colon in
      front of an address shift the 17-character window, and the address itself
      is not reported. */
  lemma MisalignedAddressMissed()
    ensures "00:11:22:33:44:55" !in Tokens("1:00:11:22:33:44:55,0")
  {
    var out := "1:00:11:22:33:44:55,0";
    assert TokenAt(out, 0);
    assert MatchStarts(out, 0) == [0];
    assert Tokens(out)[0][0] == '1';
  }
}
